=== FILE: README.md ===
# Leap-frog shallow-water solver: step orchestration, boundary dispatch, ensemble bookkeeping

This Dafny project models the sequential control logic of three parts of a
GPU shallow-water simulation package. It then proves properties of that model.

- **The leap-frog solver** (`CTCS` and `CTCS_boundary_condition`). This is a
  centred-in-time, centred-in-space scheme on an Arakawa C grid.
  - Construction derives two things. First, the closed-boundary flags handed
    to the momentum kernels. Second, the launch geometry: every global size is
    rounded up to a whole number of blocks.
  - `step(t_end)` decides how many sub-steps run and with which local time
    step. It issues the kernel launches, boundary refreshes and time-level
    swaps in a fixed order, and advances the clock.
  - The boundary dispatcher maps the four edge codes (1 closed, 2 periodic,
    anything else sponge) to three outcomes for each field: "launch the closed
    kernels", "do nothing", or "fail".
  - The stencil and boundary kernels are opaque. A step is modelled as an
    event trace. Each kernel event records the buffers it is handed: which
    physical buffer of eta, hu and hv plays level n-1 (`h0`, `hu0`, `hv0`) and
    which plays level n (`h1`, `hu1`, `hv1`).
  - The swap is a single role flip shared by all three fields.
- **The drifter ensemble's grid bookkeeping** (`DrifterEnsemble`):
  - the particle slots made at construction;
  - the ghost-cell width of each side, taken from the sponge configuration;
  - the padded data shape;
  - zero-filled default fields and a flat bathymetry of depth 10;
  - the order in which grid information and physical parameters are set.
- **The mock-up simulator** (`mockup_sim.cpp`). It is a step counter: `init`
  sets it to steps 0..4, and `execNextStep` refuses to run past the final
  step. The object is modelled twice: as a pure state machine, and as a class
  `MockupSim.Simulator` that keeps a `Valid()` invariant. The getters are
  functions of the state, so they cannot change it.

Modules:

| module | file | contents |
|---|---|---|
| `Results` | `results.dfy` | `Option` and `Result` |
| `Common` | `common.dfy` | boundary and wind descriptors |
| `Numeric` | `numeric.dfy` | truncation, ceiling, sums, and a product helper for real arithmetic |
| `ArakawaC` | `arakawa_c.dfy` | buffers and level roles |
| `CtcsBoundary` | `ctcs_boundary.dfy` | boundary dispatch |
| `Ctcs` | `ctcs.dfy` | construction, sub-step and step |
| `CtcsProperties` | `ctcs_properties.dfy` | clock, sub-step count, trace and leap-frog chaining |
| `DrifterEnsemble` | `drifter_ensemble.dfy` | ensemble bookkeeping |
| `MockupSim` | `mockup_sim.dfy` | mock simulator |

Floats are mathematical reals. The source's errors become values:
- a failed assertion becomes `Err(SpongeNotSupported)` or `Err(BoundaryUnsupported(issued))`, where `issued` lists the refreshes already launched before the failing one;
- an undefined float-to-integer conversion becomes `Err(TimeStepZero)` or `Err(BlockSizeZero)`;
- the mock simulator's exception becomes `Err(StepBeyondFinal(next, final))`;
- a missing attribute becomes `Err(GridInfoNotSet)`.

### Behaviour worth knowing

- **The momentum kernels read the previous levels of eta and hu.** The U and
  V kernels read `h1`, eta at level n, rather than the `h0` the eta kernel
  has just written. The V kernel reads `hu1`, rather than the `hu0` the U
  kernel has just written (`CTCS.py:176-178`, `194-195`). `CtcsProperties.SubStepRoles`
  states this.
- **Edge pairs are not treated symmetrically.** A periodic first edge (east
  for hu; north for hv and eta) makes the refresh a no-op whatever the second
  edge is. A closed first edge with a non-closed second edge fails
  (`CTCS.py:256-269`). `CtcsBoundary.HalfOpenPairs` states this.
- **The eta refresh consults only north and south**, even for its east-west
  pass (`CTCS.py:297-316`).
- **Sponge codes are never checked at construction.** Whether a sponge code
  is ever rejected depends on where it sits.
  - Behind a closed first edge (north or east 1, partner 3), or as a first
    edge itself, it fails the first `step` at its opening refresh, before any
    sub-step runs, so nothing is swapped. Refreshes launched before the
    failing one stay queued, and the error lists them
    (`CtcsProperties.FailedStepReportsEtaRefresh`).
  - Behind a periodic first edge (north or east 2, partner 3), every refresh
    is a no-op. Such a configuration is accepted silently, forever
    (`CTCS.py:265-267`, `285-288`, `311-314`).
- **The loop bound truncates.** It is `int(t_end/dt + 1)`, which rounds
  toward zero (`CTCS.py:139`), not `floor(t_end/dt) + 1`. The two differ only
  when no sub-step runs anyway.
- **Periodic refreshes do nothing.** The periodic kernels are placeholders,
  so a periodic refresh launches nothing.
- **`init` does not hand beta to the simulator.** The ensemble's `init`
  passes g, f, r and the wind to the simulator but not beta
  (`DrifterEnsemble.py:128-135`), although beta is stored (`118`) and copied
  from a simulator (`64`). See "## Findings".

### Assumptions about code outside the model

`Common` is not part of this model. Its behaviour is assumed as follows:
- `isDefault()` means all four codes are 1.
- `isSponge()` means some code is 3.
- `getSponge()` returns the four sponge widths in the order north, east, south, west.
- `WindStressParams(type=99)` is a descriptor of kind 99 whose other coefficients are not modelled.

## Model

| member | source | states |
|---|---|---|
| `Ctcs.NewCtcs` | doc/reference_python/SWESimulators/CTCS.py:62-132 | construction fails exactly when a block dimension is 0; otherwise the stored closed-boundary flags are the derived ones, the clock is 0, the first buffers play level n-1, each solver global size is the smallest multiple of its block size at least nx+2 / ny+2, and each boundary global size is the smallest multiple of 16 at least nx+3 / ny+3 |
| `Ctcs.GlobalExtent` | doc/reference_python/SWESimulators/CTCS.py:121-125 | for a positive block, the ceiling of size/block times block is a multiple of block in [size, size + block) |
| `Ctcs.ClosedNS` | doc/reference_python/SWESimulators/CTCS.py:87-91 | the V kernel's flag is 0 or 1, and 0 exactly when the descriptor is non-default and north is periodic |
| `Ctcs.ClosedEA` | doc/reference_python/SWESimulators/CTCS.py:87-93 | the U kernel's flag is 0 or 1, and 0 exactly when the descriptor is non-default and east is periodic |
| `Ctcs.ClosedFlagsFollowPeriodicEdge` | doc/reference_python/SWESimulators/CTCS.py:87-93 | a flag is 0 exactly when the first edge of its pair is periodic; the default descriptor gives 1 and 1 |
| `Ctcs.ClosedFlagsMatchDispatch` | doc/reference_python/SWESimulators/CTCS.py:255-290 | in a runnable configuration, a momentum kernel's flag says closed exactly when that field's refresh launches the closed boundary kernel |
| `Ctcs.SubStep` | doc/reference_python/SWESimulators/CTCS.py:160-209 | one sub-step issues eta, refresh eta, U, refresh hu, V, refresh hv and swap, with the documented buffer table and the wind time at the sub-step's start; the roles are swapped and the clock advances by the local time step |
| `Ctcs.Schedule` | doc/reference_python/SWESimulators/CTCS.py:146-158 | the loop runs at most n - i sub-steps; every local time step is in (0, dt], and all but the last equal dt |
| `Ctcs.RunSubSteps` | doc/reference_python/SWESimulators/CTCS.py:146-209 | running the sub-steps swaps the roles once per sub-step, advances the clock by the sum of the local time steps, and leaves one well-ordered block per sub-step |
| `Ctcs.RunSubStepsBlocks` | doc/reference_python/SWESimulators/CTCS.py:146-209 | sub-step j runs on the roles left by j swaps, with the clock at the start value plus the earlier local time steps |
| `Ctcs.Step` | doc/reference_python/SWESimulators/CTCS.py:138-211 | a step fails exactly when dt is 0 or a refresh is unsupported; an unsupported refresh reports the refreshes launched before it, in order; on success it opens with the eta, hu and hv refreshes on the level n-1 buffers, and then runs the scheduled sub-steps |
| `Ctcs.RefreshesUntilFailure` | doc/reference_python/SWESimulators/CTCS.py:142-144 | the refreshes launched before the first unsupported one: each is a successful refresh of its field on that field's level n-1 buffer, and the field after the last one, if any, fails |
| `CtcsBoundary.BoundaryConditionU` | doc/reference_python/SWESimulators/CTCS.py:255-269 | the hu refresh launches exactly `[closed-U]` when east and west are both closed; it fails exactly when that pair is not closed and east is not periodic; otherwise it launches nothing |
| `CtcsBoundary.BoundaryConditionV` | doc/reference_python/SWESimulators/CTCS.py:275-290 | the hv refresh launches exactly `[closed-V]` when north and south are both closed; it fails exactly when that pair is not closed and north is not periodic; otherwise it launches nothing |
| `CtcsBoundary.BoundaryConditionEta` | doc/reference_python/SWESimulators/CTCS.py:296-316 | the eta refresh launches the north-south pass and then the east-west pass exactly when north and south are both closed; it fails exactly when that pair is not closed and north is not periodic; otherwise it launches nothing |
| `CtcsBoundary.DispatchFollowsPolicy` | doc/reference_python/SWESimulators/CTCS.py:255-316 | each refresh equals an independent policy table keyed by its edge pair (closed, periodic, unsupported) |
| `CtcsBoundary.HalfOpenPairs` | doc/reference_python/SWESimulators/CTCS.py:256-269 | a periodic first edge makes the refresh a no-op; a closed first edge with a non-closed partner fails |
| `CtcsBoundary.DispatchLocality` | doc/reference_python/SWESimulators/CTCS.py:255-316 | the hu refresh depends only on east and west, and on west only when east is closed; the hv and eta refreshes depend only on north and south |
| `CtcsBoundary.SupportedIff` | doc/reference_python/SWESimulators/CTCS.py:255-316 | all refreshes succeed exactly when neither pair is unsupported; eta and hv succeed or fail together |
| `CtcsProperties.LoopBoundCoversSteps` | doc/reference_python/SWESimulators/CTCS.py:139-146 | for dt > 0 and t_end > 0, the loop bound is at least ceil(t_end/dt) |
| `CtcsProperties.ScheduleCompletes` | doc/reference_python/SWESimulators/CTCS.py:146-158 | from iteration i, the loop runs exactly ceil(t_end/dt) - i sub-steps, and their local time steps add up to t_end - i*dt |
| `CtcsProperties.ScheduleEmpty` | doc/reference_python/SWESimulators/CTCS.py:139-158 | a non-positive t_end or a negative dt runs no sub-step |
| `CtcsProperties.StepClock` | doc/reference_python/SWESimulators/CTCS.py:138-211 | with dt > 0 and supported boundaries, the step succeeds and the returned clock is t + t_end when t_end > 0, and t otherwise |
| `CtcsProperties.NegativeTimeStepRunsNothing` | doc/reference_python/SWESimulators/CTCS.py:139-158 | with dt < 0 and supported boundaries, the step succeeds, runs no sub-step and returns the solver unchanged |
| `CtcsProperties.StepSubSteps` | doc/reference_python/SWESimulators/CTCS.py:139-158 | for dt > 0, t_end > 0 and supported boundaries, the step succeeds and k sub-steps run with (k-1)*dt < t_end <= k*dt and k no more than the loop bound; each local time step is in (0, dt], and all but the last equal dt |
| `CtcsProperties.SubStepSwapsOnce` | doc/reference_python/SWESimulators/CTCS.py:160-207 | a sub-step contains exactly one swap, as its last event |
| `CtcsProperties.StepTraceOpensWithRefreshes` | doc/reference_python/SWESimulators/CTCS.py:142-144 | the trace begins with the eta, hu and hv refreshes on the level n-1 buffers, even when no sub-step runs |
| `CtcsProperties.FailedStepReportsEtaRefresh` | doc/reference_python/SWESimulators/CTCS.py:142-143 | with north and south closed and an unsupported east/west pair, the step fails after launching both eta boundary passes, and reports exactly those |
| `CtcsProperties.StepTraceSwaps` | doc/reference_python/SWESimulators/CTCS.py:146-209 | the trace holds exactly one swap per completed sub-step, and nothing follows the last swap |
| `CtcsProperties.StepSwapsRoles` | doc/reference_python/SWESimulators/CTCS.py:206-209 | after a step, the buffer roles are those left by one swap per completed sub-step |
| `CtcsProperties.SubStepRoles` | doc/reference_python/SWESimulators/CTCS.py:160-204 | each kernel overwrites its own field's level n-1 buffer with level n+1, and that buffer is none of its level-n inputs and never the depth field; U and V read eta and hu at level n, not the fresh level n+1; each refresh targets the buffer its kernel wrote; both momentum kernels get the same wind time t |
| `CtcsProperties.LeapfrogChain` | doc/reference_python/SWESimulators/CTCS.py:147-207 | across consecutive sub-steps, the buffer written is read as level n next time, and the level-n buffer is the one overwritten next |
| `CtcsProperties.WindTimeIsStartOfSubStep` | doc/reference_python/SWESimulators/CTCS.py:170-209 | sub-step j's wind time is the step's start time plus the local time steps of the sub-steps before it |
| `ArakawaC.Swap` | doc/reference_python/SWESimulators/CTCS.py:147-153 | a swap exchanges the level n-1 and level n buffers of every field at once |
| `ArakawaC.SwapN` | doc/reference_python/SWESimulators/CTCS.py:206-207 | after k swaps, only the parity of k decides the roles |
| `Numeric.Trunc` | doc/reference_python/SWESimulators/CTCS.py:139 | float-to-integer conversion rounds toward zero |
| `Numeric.Ceil` | doc/reference_python/SWESimulators/CTCS.py:123 | the ceiling is the least integer not below x |
| `DrifterEnsemble.NewEnsemble` | python/SWESimulators/DrifterEnsemble.py:38-49 | there are numParticles + 1 slots (none when that count is not positive), all empty; the observation index is numParticles, which lies within the slots when numParticles is non-negative |
| `DrifterEnsemble.OverrideGhosts` | python/SWESimulators/DrifterEnsemble.py:86-88 | from side i on, a positive sponge width replaces that side's width, and earlier sides are untouched |
| `DrifterEnsemble.GhostCells` | python/SWESimulators/DrifterEnsemble.py:83-88 | a side's ghost width is its sponge width when the descriptor is sponge and that width is positive, and 2 otherwise; every width is at least 1 |
| `DrifterEnsemble.OrZeros` | python/SWESimulators/DrifterEnsemble.py:97-103 | a given field is kept as is; a missing one becomes zeros of the data shape |
| `DrifterEnsemble.OrFlatBottom` | python/SWESimulators/DrifterEnsemble.py:105-108 | a given bathymetry is kept; a missing one becomes depth 10 over the data shape grown by one in each direction |
| `DrifterEnsemble.SetGridInfo` | python/SWESimulators/DrifterEnsemble.py:67-111 | records the grid; the ghost widths and data shape come from the boundary conditions; the initial variance is 10*dx, the initial covariance is that variance times the 2x2 identity, and the mid point is half the domain; missing fields get defaults; parameters reset to the defaults; the particle slots are unchanged |
| `DrifterEnsemble.SetParameters` | python/SWESimulators/DrifterEnsemble.py:115-120 | installs the given parameters and changes nothing else |
| `DrifterEnsemble.SetGridInfoFromSim` | python/SWESimulators/DrifterEnsemble.py:58-64 | the grid size, spacings, time step, boundary conditions and ghost widths come from the simulator, its fields and bathymetry are kept, the particle slots are unchanged, and its parameters win over the defaults that setting the grid installs |
| `DrifterEnsemble.DomainSizeX` | python/SWESimulators/DrifterEnsemble.py:172-173 | the domain width is nx*dx once the grid is set, and an error before |
| `DrifterEnsemble.DomainSizeY` | python/SWESimulators/DrifterEnsemble.py:174-175 | the domain height is ny*dy once the grid is set, and an error before |
| `DrifterEnsemble.InitPlanOf` | python/SWESimulators/DrifterEnsemble.py:126-141 | init fails before the grid is set. Otherwise it hands on the stored eta, hu, hv and bathymetry, nx, ny, dx, dy, dt, g, f, r, wind and boundary conditions. The drifters get the particle count, observation variance and domain size nx*dx by ny*dy. Beta is not handed on |
| `DrifterEnsemble.InitAfterGrid` | python/SWESimulators/DrifterEnsemble.py:111-141 | after the grid is set, initialisation succeeds; as written it hands on the default g, f, r and wind and gives the drifters the domain size the ensemble reports; the default beta 0 reaches only the corrected plan |
| `DrifterEnsemble.InitDropsBeta` | python/SWESimulators/DrifterEnsemble.py:58-64 | as written, an ensemble taken from a simulator with any beta initialises exactly like one taken from a simulator with beta 0 |
| `DrifterEnsemble.InitPlanWithBeta` | python/SWESimulators/DrifterEnsemble.py:115-120 | the corrected init: the same plan, plus the stored beta |
| `DrifterEnsemble.InitKeepsSimulatorBeta` | python/SWESimulators/DrifterEnsemble.py:58-64 | with the corrected init, the simulator's beta reaches the plan, so simulators that differ only in beta give different plans |
| `DrifterEnsemble.NoSpongeShape` | python/SWESimulators/DrifterEnsemble.py:83-90 | without sponge edges, every ghost width is 2 and the data shape is (ny+4, nx+4) |
| `DrifterEnsemble.DataShapeBounds` | python/SWESimulators/DrifterEnsemble.py:83-90 | the data shape is at least (ny+2, nx+2); sponge boundaries with no positive sponge width give the same (ny+4, nx+4) as no sponge |
| `DrifterEnsemble.MidPointIsHalfDomain` | python/SWESimulators/DrifterEnsemble.py:74-76 | the mid point that setting the grid records is half the domain size the ensemble reports, in each direction |
| `DrifterEnsemble.SetGridInfoIdempotent` | python/SWESimulators/DrifterEnsemble.py:67-111 | setting the same grid twice gives the same result as setting it once |
| `DrifterEnsemble.ParametersAndGridOrder` | python/SWESimulators/DrifterEnsemble.py:111-120 | parameters set after the grid survive; parameters set before it are replaced by the defaults |
| `MockupSim.Fresh` | sim/src/mockup_sim.cpp:17-22 | a new simulator has next and final step both -1 |
| `MockupSim.InitState` | sim/src/mockup_sim.cpp:33-39 | init sets the next step to 0 and the final step to 4, whatever the state was before |
| `MockupSim.ExecStep` | sim/src/mockup_sim.cpp:51-59 | a step fails exactly when next > final, and the error reports both counters; otherwise next grows by one and final is unchanged |
| `MockupSim.Simulator.Init` | sim/src/mockup_sim.cpp:33-39 | the object's init sets next to 0 and final to 4, and the object is then valid |
| `MockupSim.Simulator.ExecNextStep` | sim/src/mockup_sim.cpp:51-59 | on a valid object, the call fails exactly when next > final, reporting both counters, and then leaves the state unchanged; on success next grows by one, final is unchanged, and the object stays valid |
| `MockupSim.FreshAndInitValid` | sim/src/mockup_sim.cpp:17-39 | the fresh and the initialised states satisfy -1 <= next <= final + 1 |
| `MockupSim.ExecPreservesValid` | sim/src/mockup_sim.cpp:51-59 | a successful step keeps -1 <= next <= final + 1 |
| `MockupSim.RemainingSteps` | sim/src/mockup_sim.cpp:51-59 | from a valid state, exactly final - next + 1 steps succeed, ending at next = final + 1, and the next step fails |
| `MockupSim.InitAllowsFiveSteps` | sim/src/mockup_sim.cpp:33-59 | after init, five steps succeed and the sixth fails |
| `MockupSim.ReachableFromInit` | sim/src/mockup_sim.cpp:33-59 | after init and k successful steps, next = k and 0 <= next <= final + 1 |

## Left out

- The OpenCL stencil and boundary kernels are not modelled. Each is an opaque
  event carrying the buffers, local time step, closed flag, wind descriptor
  and wind time it is handed; the grid size, spacings, g, f, r, A, pitches
  and launch sizes are left off the event, because the kernels' source is
  not part of this model and those arguments are the same on every call.
- The device memory behind the buffers is not modelled. Neither are upload,
  download, kernel compilation, command queues or module reloading. These are
  runtime plumbing, and `Common` is not part of this model.
- Single-precision rounding is not modelled. The properties of `dt`,
  `local_dt` and the clock are stated in exact real arithmetic, so they are
  the exact-arithmetic versions of what the float32 code computes.
- 32-bit integer wrap of `nx` and `ny` is not modelled. The grid sizes are
  unbounded integers.
- Ctcs.Step: returns the whole advanced solver rather than only the clock.
  The returned time is its `t` field.
- Ctcs.NewCtcs: block sizes are not limited to positive values. For a
  negative block size, the rounding is computed as the code computes it, but
  no rounding property is stated.
- Ctcs.NewCtcs: the boundary kernels always use 16 by 16 blocks, because the
  constructor does not pass its block size on.
- DrifterEnsemble: the delegation to the GPU drifter simulator is not
  modelled. That covers `observeParticles`, `observeTrueState`, `step`,
  `getDistances`, `resample`, `getEnsembleMean`, `plotDistanceInfo`,
  `enforceBoundaryConditions` and `cleanUp`. These are thin wrappers over
  classes and plotting outside this model.
- DrifterEnsemble: `init` is modelled only as the arguments it hands on.
- DrifterEnsemble: `getObservationVariance` and `getNumParticles` are field
  reads of the ensemble record.
- DrifterEnsemble: the `simType` assertion always holds, because the
  constructor fixes the scheme name, so it is not modelled.
- DrifterEnsemble: the ghost widths are plain integers. Array element types
  and memory order are not modelled.
- MockupSim: `printStatus` and the formatting of the error message are not
  modelled, because they are output only. The program options the simulator
  keeps are not read by the modelled operations.
- MockupSim.Simulator: the getters `NextStep` and `FinalStep` are reads of
  the state, so they cannot change it. The multi-step properties are stated
  on the pure state machine.

## Findings

| source | as written | input that shows it | evidently intended | confidence | as-written member | corrected member |
|---|---|---|---|---|---|---|
| python/SWESimulators/DrifterEnsemble.py:126-135 | `init` builds the simulator from g, f, r and the wind, but never passes the stored beta | `setGridInfoFromSim` on a simulator whose `coriolis_beta` is 1e-11, then `init`: the new simulator gets the same arguments as for beta 0 | the beta stored by `setParameters` (line 118) and copied from the simulator (line 64) reaches the simulator | low; not executed. The simulator's constructor is not part of this model, so whether it accepts a beta is not known | `DrifterEnsemble.InitDropsBeta` | `DrifterEnsemble.InitKeepsSimulatorBeta` |

=== FILE: arakawa_c.dfy ===
/** Double-buffered storage of the three leap-frogged fields on the Arakawa C
    grid.  Each of eta, hu and hv owns two physical buffers; a role assignment
    says which of them currently plays level n-1 ("0", overwritten with n+1 by
    the kernels) and which plays level n ("1").  The device memory behind the
    buffers is not modelled, only their identities and roles. */
module ArakawaC {

  datatype Field = Eta | Hu | Hv

  datatype Slot = SlotA | SlotB

  /** A device buffer the kernels can be handed: the static depth field, or one
      of the two time-level buffers of a field. */
  datatype Buffer = Bathymetry | Level(field: Field, slot: Slot)

  /** One flag for all three fields: swapping the roles of one field without
      the others cannot be expressed. */
  datatype Roles = Roles(swapped: bool)

  /** Roles right after upload: the first buffer of each field plays level n-1. */
  const Initial: Roles := Roles(false)

  /** The buffer playing h0 / hu0 / hv0. */
  function Buf0(d: Roles, f: Field): (b: Buffer)
    ensures b.Level? && b.field == f
  {
    Level(f, if d.swapped then SlotB else SlotA)
  }

  /** The buffer playing h1 / hu1 / hv1. */
  function Buf1(d: Roles, f: Field): (b: Buffer)
    ensures b.Level? && b.field == f
    ensures b != Buf0(d, f)
  {
    Level(f, if d.swapped then SlotA else SlotB)
  }

  /** Exchange the two roles of every field at once. */
  function Swap(d: Roles): (d': Roles)
    ensures forall f :: Buf0(d', f) == Buf1(d, f) && Buf1(d', f) == Buf0(d, f)
  {
    Roles(!d.swapped)
  }

  /** The roles after `k` swaps: only the parity of `k` matters. */
  function SwapN(d: Roles, k: nat): (d': Roles)
    ensures d' == if k % 2 == 0 then d else Swap(d)
  {
    if k == 0 then d else Swap(SwapN(d, k - 1))
  }
}

=== FILE: common.dfy ===
/** The configuration records the solvers and the ensemble share: the boundary
    condition descriptor and the wind-stress descriptor.  Only the parts the
    modelled code reads are represented. */
module Common {

  /** Edge codes of a boundary-condition descriptor. */
  const CLOSED: int := 1
  const PERIODIC: int := 2
  const SPONGE: int := 3

  /** A per-side quadruple, indexed north, east, south, west. */
  type Quad = s: seq<int> | |s| == 4 witness [0, 0, 0, 0]

  datatype BoundaryConditions = BoundaryConditions(
    north: int, east: int, south: int, west: int,
    spongeCells: Quad)

  /** All four edges closed. */
  predicate IsDefault(bc: BoundaryConditions) {
    bc.north == CLOSED && bc.east == CLOSED && bc.south == CLOSED && bc.west == CLOSED
  }

  /** Some edge asks for a sponge (absorbing) layer. */
  predicate IsSponge(bc: BoundaryConditions) {
    bc.north == SPONGE || bc.east == SPONGE || bc.south == SPONGE || bc.west == SPONGE
  }

  /** The wind-stress descriptor handed unchanged to the momentum kernels.
      `DefaultOfKind(k)` is the descriptor built from the library defaults with
      only the type set to `k`; those default coefficients are not modelled. */
  datatype WindStress =
    | WindStress(
        kind: int,
        tau0: real, rho: real, alpha: real, xm: real, rc: real,
        x0: real, y0: real, u0: real, v0: real)
    | DefaultOfKind(kind: int)
}

=== FILE: ctcs.dfy ===
/** The leap-frog (centred in time, centred in space) shallow-water solver:
    construction of its launch configuration, and `step`, which decides how
    many sub-steps run and emits, for each, the kernel launches, boundary
    refreshes and the time-level swap in the order the solver issues them.
    The stencil kernels are opaque events carrying the buffers they are handed. */
module Ctcs {
  import opened Results
  import opened Common
  import opened ArakawaC
  import opened CtcsBoundary
  import opened Numeric

  /** Ghost-cell width of every field. */
  const HALO_X: int := 1
  const HALO_Y: int := 1

  /** Block size the boundary-condition kernels are always built with. */
  const BC_BLOCK: int := 16

  // ---------------------------------------------------------------------------
  // Launch geometry

  /** `g` is the smallest multiple of `block` that is at least `size`. */
  predicate RoundsUp(g: int, size: int, block: int)
    requires block > 0
  {
    g % block == 0 && size <= g < size + block
  }

  /** One launch-grid extent: `size` rounded to a whole number of blocks. */
  function GlobalExtent(size: int, block: int): (g: int)
    requires block != 0
    ensures block > 0 ==> RoundsUp(g, size, block)
  {
    var c := Ceil(size as real / block as real);
    if block > 0 then
      CeilTimesBlock(size, block, c);
      c * block
    else c * block
  }

  lemma CeilTimesBlock(size: int, block: int, c: int)
    requires block > 0
    requires size as real / block as real <= c as real < size as real / block as real + 1.0
    ensures RoundsUp(c * block, size, block)
  {
    var b := block as real;
    var q := size as real / b;
    assert Mul(q, b) == size as real;
    NonNegativeProduct(c as real - q, b);
    MulSub(c as real, q, b);
    PositiveProduct(q + 1.0 - c as real, b);
    MulSub(q + 1.0, c as real, b);
    MulAddOne(q, b);
    assert (c * block) as real == Mul(c as real, b);
    MultipleMod(c, block);
  }

  lemma MultipleMod(c: int, block: int)
    requires block > 0
    ensures (c * block) % block == 0
  {
    var q := (c * block) / block;
    var r := (c * block) % block;
    assert c * block == q * block + r;
    assert (c - q) * block == r;
    if c - q >= 1 {
      assert false;
    } else if c - q <= -1 {
      assert false;
    }
  }

  // ---------------------------------------------------------------------------
  // Configuration

  datatype Params = Params(
    nx: int, ny: int,
    dx: real, dy: real, dt: real,
    g: real, f: real, r: real, a: real)

  /** Everything fixed at construction. */
  datatype Config = Config(
    params: Params,
    wind: WindStress,
    bc: BoundaryConditions,
    closedNS: int,
    closedEA: int,
    localSize: (int, int),
    globalSize: (int, int),
    bcGlobalSize: (int, int))

  /** A solver: its configuration, the current role assignment of the level
      buffers, and the simulation clock. */
  datatype Solver = Solver(cfg: Config, roles: Roles, t: real)

  /** Why construction or a step fails.  An unsupported boundary pair fails
      in one of the opening refreshes; `issued` holds the refreshes launched
      before it, whose kernels stay queued. */
  datatype CtcsError = BlockSizeZero | TimeStepZero | BoundaryUnsupported(issued: seq<Event>)

  /** The north/south flag the V kernel receives: 0 (periodic) only for a
      non-default descriptor whose north edge is periodic. */
  function ClosedNS(bc: BoundaryConditions): (c: int)
    ensures c == 0 || c == 1
    ensures c == 0 <==> !IsDefault(bc) && bc.north == PERIODIC
  {
    if !IsDefault(bc) && bc.north == PERIODIC then 0 else 1
  }

  /** The east/west flag the U kernel receives. */
  function ClosedEA(bc: BoundaryConditions): (c: int)
    ensures c == 0 || c == 1
    ensures c == 0 <==> !IsDefault(bc) && bc.east == PERIODIC
  {
    if !IsDefault(bc) && bc.east == PERIODIC then 0 else 1
  }

  /** Construction: derive the boundary flags and the launch geometry, start
      the clock at zero.  A zero block size makes the launch geometry
      undefined and construction fails. */
  function NewCtcs(p: Params, wind: WindStress, bc: BoundaryConditions,
                   blockWidth: int, blockHeight: int): (r: Result<Solver, CtcsError>)
    ensures r.Err? <==> blockWidth == 0 || blockHeight == 0
    ensures r.Err? ==> r.error == BlockSizeZero
    ensures r.Ok? ==> r.value.t == 0.0 && r.value.roles == Initial
    ensures r.Ok? ==> r.value.cfg.params == p && r.value.cfg.wind == wind && r.value.cfg.bc == bc
    ensures r.Ok? ==> r.value.cfg.localSize == (blockWidth, blockHeight)
    ensures r.Ok? ==> r.value.cfg.closedNS == ClosedNS(bc) && r.value.cfg.closedEA == ClosedEA(bc)
    ensures r.Ok? && blockWidth > 0 ==>
              RoundsUp(r.value.cfg.globalSize.0, p.nx + 2 * HALO_X, blockWidth)
    ensures r.Ok? && blockHeight > 0 ==>
              RoundsUp(r.value.cfg.globalSize.1, p.ny + 2 * HALO_Y, blockHeight)
    ensures r.Ok? ==> RoundsUp(r.value.cfg.bcGlobalSize.0, p.nx + 2 * HALO_X + 1, BC_BLOCK)
    ensures r.Ok? ==> RoundsUp(r.value.cfg.bcGlobalSize.1, p.ny + 2 * HALO_Y + 1, BC_BLOCK)
  {
    if blockWidth == 0 || blockHeight == 0 then Err(BlockSizeZero)
    else
      var global := (GlobalExtent(p.nx + 2 * HALO_X, blockWidth),
                     GlobalExtent(p.ny + 2 * HALO_Y, blockHeight));
      var bcGlobal := (GlobalExtent(p.nx + 2 * HALO_X + 1, BC_BLOCK),
                       GlobalExtent(p.ny + 2 * HALO_Y + 1, BC_BLOCK));
      var cfg := Config(p, wind, bc, ClosedNS(bc), ClosedEA(bc),
                        (blockWidth, blockHeight), global, bcGlobal);
      Ok(Solver(cfg, Initial, 0.0))
  }

  /** With the default descriptor both flags are 1; otherwise a flag is 0
      exactly when the first edge of its pair is periodic. */
  lemma ClosedFlagsFollowPeriodicEdge(bc: BoundaryConditions)
    ensures ClosedNS(bc) == 0 <==> bc.north == PERIODIC
    ensures ClosedEA(bc) == 0 <==> bc.east == PERIODIC
    ensures IsDefault(bc) ==> ClosedNS(bc) == 1 && ClosedEA(bc) == 1
  {
  }

  /** In a configuration the solver can run, the flag handed to a momentum
      kernel says closed exactly when that field's refresh launches the closed
      boundary kernel. */
  lemma ClosedFlagsMatchDispatch(bc: BoundaryConditions)
    requires Supported(bc)
    ensures ClosedNS(bc) == 1 <==> Launches(bc, Hv) == [ClosedV]
    ensures ClosedEA(bc) == 1 <==> Launches(bc, Hu) == [ClosedU]
  {
  }

  // ---------------------------------------------------------------------------
  // Events

  /** One action of the step, with the buffers it is handed.  A kernel's `Out`
      buffer holds level n-1 on entry and level n+1 on exit; its `In` buffers
      hold level n. */
  datatype Event =
    | EtaKernel(localDt: real, etaOut: Buffer, huIn: Buffer, hvIn: Buffer)
    | UKernel(localDt: real, closed: int, depth: Buffer, etaIn: Buffer,
              huOut: Buffer, huIn: Buffer, hvIn: Buffer, wind: WindStress, windTime: real)
    | VKernel(localDt: real, closed: int, depth: Buffer, etaIn: Buffer,
              huIn: Buffer, hvOut: Buffer, hvIn: Buffer, wind: WindStress, windTime: real)
    | Refresh(field: Field, target: Buffer, launched: seq<BcKernel>)
    | SwapLevels

  /** The boundary refresh of field `f` on the buffer now playing level n-1. */
  function RefreshOf(cfg: Config, d: Roles, f: Field): Event
    requires Supported(cfg.bc)
  {
    Refresh(f, Buf0(d, f), Launches(cfg.bc, f))
  }

  /** The order of actions in a completed sub-step: eta kernel, its refresh,
      U kernel, its refresh, V kernel, its refresh, swap. */
  predicate SubStepOrder(ev: seq<Event>)
  {
    && |ev| == 7
    && ev[0].EtaKernel? && ev[1].Refresh? && ev[1].field == Eta
    && ev[2].UKernel? && ev[3].Refresh? && ev[3].field == Hu
    && ev[4].VKernel? && ev[5].Refresh? && ev[5].field == Hv
    && ev[6].SwapLevels?
  }

  /** What one completed sub-step looks like, as a table of roles: eta first
      (writing eta level n-1 from hu, hv at level n), its refresh, U (writing
      hu level n-1 from eta, hu, hv at level n), its refresh, V likewise, its
      refresh, then one swap.  Both momentum kernels see the clock `t` at the
      start of the sub-step. */
  predicate IsSubStep(ev: seq<Event>, cfg: Config, d: Roles, t: real, localDt: real)
    requires Supported(cfg.bc)
  {
    && |ev| == 7
    && ev[0] == EtaKernel(localDt, Buf0(d, Eta), Buf1(d, Hu), Buf1(d, Hv))
    && ev[1] == RefreshOf(cfg, d, Eta)
    && ev[2] == UKernel(localDt, cfg.closedEA, Bathymetry, Buf1(d, Eta),
                        Buf0(d, Hu), Buf1(d, Hu), Buf1(d, Hv), cfg.wind, t)
    && ev[3] == RefreshOf(cfg, d, Hu)
    && ev[4] == VKernel(localDt, cfg.closedNS, Bathymetry, Buf1(d, Eta),
                        Buf1(d, Hu), Buf0(d, Hv), Buf1(d, Hv), cfg.wind, t)
    && ev[5] == RefreshOf(cfg, d, Hv)
    && ev[6] == SwapLevels
  }

  // ---------------------------------------------------------------------------
  // Step

  /** The body of the sub-step loop for one `localDt`. */
  function SubStep(s: Solver, localDt: real): (r: (Solver, seq<Event>))
    requires Supported(s.cfg.bc)
    ensures IsSubStep(r.1, s.cfg, s.roles, s.t, localDt)
    ensures r.0 == Solver(s.cfg, Swap(s.roles), s.t + localDt)
  {
    var d := s.roles;
    var cfg := s.cfg;
    var events := [
      EtaKernel(localDt, Buf0(d, Eta), Buf1(d, Hu), Buf1(d, Hv)),
      RefreshOf(cfg, d, Eta),
      UKernel(localDt, cfg.closedEA, Bathymetry, Buf1(d, Eta),
              Buf0(d, Hu), Buf1(d, Hu), Buf1(d, Hv), cfg.wind, s.t),
      RefreshOf(cfg, d, Hu),
      VKernel(localDt, cfg.closedNS, Bathymetry, Buf1(d, Eta),
              Buf1(d, Hu), Buf0(d, Hv), Buf1(d, Hv), cfg.wind, s.t),
      RefreshOf(cfg, d, Hv),
      SwapLevels
    ];
    (Solver(cfg, Swap(d), s.t + localDt), events)
  }

  /** The loop control from iteration `i` on: the local time steps of the
      sub-steps that run, up to the first non-positive one or the bound `n`. */
  function Schedule(dt: real, tEnd: real, i: nat, n: int): (dts: seq<real>)
    ensures |dts| <= if n > i then n - i else 0
    ensures forall k :: 0 <= k < |dts| ==> 0.0 < dts[k] <= dt
    ensures forall k :: 0 <= k < |dts| - 1 ==> dts[k] == dt
    decreases n - i
  {
    if i >= n then []
    else
      var localDt := Min(dt, tEnd - Mul(i as real, dt));
      if localDt <= 0.0 then []
      else
        var rest := Schedule(dt, tEnd, i + 1, n);
        MulAddOne(i as real, dt);
        [localDt] + rest
  }

  /** Runs the sub-steps with the given local time steps in order, returning
      the final solver and one event block per sub-step. */
  function RunSubSteps(s: Solver, dts: seq<real>): (r: (Solver, seq<seq<Event>>))
    requires Supported(s.cfg.bc)
    ensures r.0 == Solver(s.cfg, SwapN(s.roles, |dts|), s.t + Sum(dts))
    ensures |r.1| == |dts|
    ensures forall j :: 0 <= j < |r.1| ==> SubStepOrder(r.1[j])
    decreases |dts|
  {
    if dts == [] then (s, [])
    else
      var (s1, ev) := SubStep(s, dts[0]);
      var (s2, rest) := RunSubSteps(s1, dts[1..]);
      (s2, [ev] + rest)
  }

  /** Dropping the first element of a non-empty prefix. */
  lemma SumPrefix(dts: seq<real>, j: nat)
    requires 1 <= j <= |dts|
    ensures Sum(dts[..j]) == dts[0] + Sum(dts[1..][..j - 1])
  {
    assert dts[..j][1..] == dts[1..][..j - 1];
  }

  /** Sub-step `j` runs on the roles left by `j` swaps, with the clock at the
      start value plus the durations of the sub-steps before it. */
  lemma {:induction false} RunSubStepsBlocks(s: Solver, dts: seq<real>, j: nat)
    requires Supported(s.cfg.bc)
    requires j < |dts|
    ensures IsSubStep(RunSubSteps(s, dts).1[j], s.cfg, SwapN(s.roles, j), s.t + Sum(dts[..j]), dts[j])
    decreases |dts|
  {
    var (s1, ev) := SubStep(s, dts[0]);
    if j == 0 {
      assert dts[..0] == [];
    } else {
      RunSubStepsBlocks(s1, dts[1..], j - 1);
      SumPrefix(dts, j);
      assert RunSubSteps(s, dts).1[j] == RunSubSteps(s1, dts[1..]).1[j - 1];
    }
  }

  /** The opening refreshes of the fields in `fields`, in order, up to the
      first one that fails: each refresh that succeeds is issued on the buffer
      playing level n-1, and the first failure stops the sequence. */
  function RefreshesUntilFailure(bc: BoundaryConditions, d: Roles, fields: seq<Field>): (ev: seq<Event>)
    ensures |ev| <= |fields|
    ensures forall k :: 0 <= k < |ev| ==>
              BoundaryCondition(bc, fields[k]).Ok? &&
              ev[k] == Refresh(fields[k], Buf0(d, fields[k]), BoundaryCondition(bc, fields[k]).value)
    ensures |ev| < |fields| ==> BoundaryCondition(bc, fields[|ev|]).Err?
  {
    if fields == [] then []
    else match BoundaryCondition(bc, fields[0])
      case Err(_) => []
      case Ok(ks) => [Refresh(fields[0], Buf0(d, fields[0]), ks)] + RefreshesUntilFailure(bc, d, fields[1..])
  }

  /** The outcome of a successful step: the advanced solver, the three
      boundary refreshes issued before the loop, and one event block per
      completed sub-step. */
  datatype StepResult = StepResult(solver: Solver, refreshes: seq<Event>, subSteps: seq<seq<Event>>)

  /** The loop bound: the float `tEnd / dt + 1` converted to an integer. */
  function LoopBound(dt: real, tEnd: real): int
    requires dt != 0.0
  {
    Trunc(tEnd / dt + 1.0)
  }

  /** The local time steps a step of length `tEnd` runs. */
  function StepSchedule(dt: real, tEnd: real): seq<real>
    requires dt != 0.0
  {
    Schedule(dt, tEnd, 0, LoopBound(dt, tEnd))
  }

  /** Advance the solver by `tEnd`.  A zero time step makes the loop bound
      undefined; an unsupported boundary pair fails in the refresh issued
      before the loop, so no sub-step runs in either case. */
  function Step(s: Solver, tEnd: real): (r: Result<StepResult, CtcsError>)
    ensures r.Err? <==> s.cfg.params.dt == 0.0 || !Supported(s.cfg.bc)
    ensures r.Err? ==> (r.error == TimeStepZero <==> s.cfg.params.dt == 0.0)
    ensures r.Err? && s.cfg.params.dt != 0.0 ==>
              r.error == BoundaryUnsupported(RefreshesUntilFailure(s.cfg.bc, s.roles, [Eta, Hu, Hv]))
    ensures r.Ok? ==>
              r.value.refreshes ==
                [RefreshOf(s.cfg, s.roles, Eta), RefreshOf(s.cfg, s.roles, Hu), RefreshOf(s.cfg, s.roles, Hv)]
    ensures r.Ok? ==>
              var dts := StepSchedule(s.cfg.params.dt, tEnd);
              && r.value.solver == Solver(s.cfg, SwapN(s.roles, |dts|), s.t + Sum(dts))
              && r.value.subSteps == RunSubSteps(s, dts).1
    ensures r.Ok? ==> forall j :: 0 <= j < |r.value.subSteps| ==> SubStepOrder(r.value.subSteps[j])
  {
    var dt := s.cfg.params.dt;
    if dt == 0.0 then Err(TimeStepZero)
    else if !Supported(s.cfg.bc) then Err(BoundaryUnsupported(RefreshesUntilFailure(s.cfg.bc, s.roles, [Eta, Hu, Hv])))
    else
      var pre := [RefreshOf(s.cfg, s.roles, Eta), RefreshOf(s.cfg, s.roles, Hu), RefreshOf(s.cfg, s.roles, Hv)];
      var (s', blocks) := RunSubSteps(s, StepSchedule(dt, tEnd));
      Ok(StepResult(s', pre, blocks))
  }
}

=== FILE: ctcs_boundary.dfy ===
/** Boundary-condition dispatch of the leap-frog solver: for each field, which
    boundary kernels a refresh launches, given the four edge codes.  The
    kernels themselves are opaque; only which ones run, and in which order, is
    modelled. */
module CtcsBoundary {
  import opened Results
  import opened Common
  import opened ArakawaC

  /** The boundary kernels a refresh can launch. */
  datatype BcKernel = ClosedU | ClosedV | ClosedEtaNS | ClosedEtaEW

  /** The failed assertion of the unsupported branch. */
  datatype BcError = SpongeNotSupported

  /** What a pair of opposite edges asks for, as a policy table keyed by the
      pair: closed only when both edges are closed, periodic when the first
      edge of the pair is periodic, unsupported otherwise. */
  datatype PairPolicy = ClosedPair | PeriodicPair | Unsupported

  function Policy(first: int, second: int): (p: PairPolicy)
  {
    if first == CLOSED && second == CLOSED then ClosedPair
    else if first == PERIODIC then PeriodicPair
    else Unsupported
  }

  /** Refresh of the hu field: the east/west pair decides. */
  function BoundaryConditionU(bc: BoundaryConditions): (r: Result<seq<BcKernel>, BcError>)
    ensures r.Ok? ==> r.value == [] || r.value == [ClosedU]
    ensures r.Ok? && |r.value| > 0 <==> bc.east == CLOSED && bc.west == CLOSED
    ensures r.Err? <==> !(bc.east == CLOSED && bc.west == CLOSED) && bc.east != PERIODIC
  {
    if bc.east == CLOSED && bc.west == CLOSED then Ok([ClosedU])
    else if bc.east == PERIODIC then Ok([])
    else Err(SpongeNotSupported)
  }

  /** Refresh of the hv field: the north/south pair decides. */
  function BoundaryConditionV(bc: BoundaryConditions): (r: Result<seq<BcKernel>, BcError>)
    ensures r.Ok? ==> r.value == [] || r.value == [ClosedV]
    ensures r.Ok? && |r.value| > 0 <==> bc.north == CLOSED && bc.south == CLOSED
    ensures r.Err? <==> !(bc.north == CLOSED && bc.south == CLOSED) && bc.north != PERIODIC
  {
    if bc.north == CLOSED && bc.south == CLOSED then Ok([ClosedV])
    else if bc.north == PERIODIC then Ok([])
    else Err(SpongeNotSupported)
  }

  /** Refresh of the eta ghost cells: only the north/south pair is consulted,
      and a closed domain runs the north/south pass before the east/west pass. */
  function BoundaryConditionEta(bc: BoundaryConditions): (r: Result<seq<BcKernel>, BcError>)
    ensures r.Ok? ==> r.value == [] || r.value == [ClosedEtaNS, ClosedEtaEW]
    ensures r.Ok? && |r.value| > 0 <==> bc.north == CLOSED && bc.south == CLOSED
    ensures r.Err? <==> !(bc.north == CLOSED && bc.south == CLOSED) && bc.north != PERIODIC
  {
    if bc.north == CLOSED && bc.south == CLOSED then Ok([ClosedEtaNS, ClosedEtaEW])
    else if bc.north == PERIODIC then Ok([])
    else Err(SpongeNotSupported)
  }

  /** The refresh of field `f`. */
  function BoundaryCondition(bc: BoundaryConditions, f: Field): Result<seq<BcKernel>, BcError>
  {
    match f
    case Eta => BoundaryConditionEta(bc)
    case Hu => BoundaryConditionU(bc)
    case Hv => BoundaryConditionV(bc)
  }

  /** Every refresh succeeds. */
  predicate Supported(bc: BoundaryConditions) {
    BoundaryConditionEta(bc).Ok? && BoundaryConditionU(bc).Ok? && BoundaryConditionV(bc).Ok?
  }

  /** The kernels a refresh of `f` launches in a supported configuration. */
  function Launches(bc: BoundaryConditions, f: Field): (ks: seq<BcKernel>)
    requires Supported(bc)
    ensures BoundaryCondition(bc, f) == Ok(ks)
  {
    BoundaryCondition(bc, f).value
  }

  /** Each refresh agrees with the pair policy table: U is keyed by the
      (east, west) pair, V and eta by the (north, south) pair. */
  lemma DispatchFollowsPolicy(bc: BoundaryConditions)
    ensures BoundaryConditionU(bc) == PolicyLaunches(Policy(bc.east, bc.west), [ClosedU])
    ensures BoundaryConditionV(bc) == PolicyLaunches(Policy(bc.north, bc.south), [ClosedV])
    ensures BoundaryConditionEta(bc) ==
              PolicyLaunches(Policy(bc.north, bc.south), [ClosedEtaNS, ClosedEtaEW])
  {
  }

  /** The outcome of a refresh under a pair policy, given the kernels the
      closed case launches. */
  function PolicyLaunches(p: PairPolicy, closed: seq<BcKernel>): Result<seq<BcKernel>, BcError>
  {
    match p
    case ClosedPair => Ok(closed)
    case PeriodicPair => Ok([])
    case Unsupported => Err(SpongeNotSupported)
  }

  /** Half-open pairs are not symmetric: a periodic first edge makes the refresh
      a no-op whatever the second edge is, while a closed first edge with a
      non-closed second edge reaches the unsupported branch. */
  lemma HalfOpenPairs(bc: BoundaryConditions)
    ensures bc.east == PERIODIC ==> BoundaryConditionU(bc) == Ok([])
    ensures bc.east == CLOSED && bc.west != CLOSED ==> BoundaryConditionU(bc).Err?
    ensures bc.north == PERIODIC ==> BoundaryConditionV(bc) == Ok([]) && BoundaryConditionEta(bc) == Ok([])
    ensures bc.north == CLOSED && bc.south != CLOSED ==>
              BoundaryConditionV(bc).Err? && BoundaryConditionEta(bc).Err?
  {
  }

  /** A refresh reads only the edge pair that keys it: the west code matters to
      hu only when east is closed, and north/south never matter to hu. */
  lemma DispatchLocality(bc: BoundaryConditions, bc': BoundaryConditions)
    ensures bc.east == bc'.east && bc.west == bc'.west ==>
              BoundaryConditionU(bc) == BoundaryConditionU(bc')
    ensures bc.east != CLOSED && bc.east == bc'.east ==>
              BoundaryConditionU(bc) == BoundaryConditionU(bc')
    ensures bc.north == bc'.north && bc.south == bc'.south ==>
              BoundaryConditionV(bc) == BoundaryConditionV(bc') &&
              BoundaryConditionEta(bc) == BoundaryConditionEta(bc')
  {
  }

  /** The solver can run exactly when neither pair is unsupported; eta and hv
      succeed or fail together. */
  lemma SupportedIff(bc: BoundaryConditions)
    ensures Supported(bc) <==>
              Policy(bc.north, bc.south) != Unsupported && Policy(bc.east, bc.west) != Unsupported
    ensures BoundaryConditionEta(bc).Ok? <==> BoundaryConditionV(bc).Ok?
  {
  }
}

=== FILE: ctcs_properties.dfy ===
/** Properties of the leap-frog solver's `step`: how far the clock advances,
    how many sub-steps run and with which local time steps, where the swaps
    fall in the trace, and how the buffers handed to the kernels chain from one
    sub-step to the next. */
module CtcsProperties {
  import opened Results
  import opened Common
  import opened ArakawaC
  import opened CtcsBoundary
  import opened Ctcs
  import opened Numeric

  // ---------------------------------------------------------------------------
  // Loop control

  /** The number of sub-steps a positive duration needs: ceil(tEnd / dt). */
  function StepsNeeded(dt: real, tEnd: real): (k: int)
    requires dt > 0.0 && tEnd > 0.0
    ensures k >= 1
    ensures Mul((k - 1) as real, dt) < tEnd <= Mul(k as real, dt)
  {
    var k := Ceil(tEnd / dt);
    CeilBounds(tEnd, dt, k);
    k
  }

  lemma CeilBounds(tEnd: real, dt: real, k: int)
    requires dt > 0.0 && tEnd > 0.0
    requires tEnd / dt <= k as real < tEnd / dt + 1.0
    ensures k >= 1
    ensures Mul((k - 1) as real, dt) < tEnd <= Mul(k as real, dt)
  {
    var q := tEnd / dt;
    DivMul(tEnd, dt);
    NonNegativeProduct(k as real - q, dt);
    MulSub(k as real, q, dt);
    PositiveProduct(q + 1.0 - k as real, dt);
    MulSub(q + 1.0, k as real, dt);
    MulAddOne(q, dt);
    MulAddOne((k - 1) as real, dt);
  }

  /** The loop bound never cuts the loop short: it is at least ceil(tEnd / dt). */
  lemma LoopBoundCoversSteps(dt: real, tEnd: real)
    requires dt > 0.0 && tEnd > 0.0
    ensures StepsNeeded(dt, tEnd) <= LoopBound(dt, tEnd)
  {
    var x := tEnd / dt;
    assert x > 0.0;
  }

  /** `i * dt` grows with `i`. */
  lemma ScaleMonotone(i: int, j: int, dt: real)
    requires i <= j && dt > 0.0
    ensures Mul(i as real, dt) <= Mul(j as real, dt)
  {
    NonNegativeProduct(j as real - i as real, dt);
    MulSub(j as real, i as real, dt);
  }

  /** From iteration `i` on, with the bound not cutting the loop short, the
      loop runs exactly the sub-steps still needed and they cover what is left
      of the duration. */
  lemma {:induction false} ScheduleCompletes(dt: real, tEnd: real, i: nat, n: int)
    requires dt > 0.0 && tEnd > 0.0
    requires i <= StepsNeeded(dt, tEnd) <= n
    ensures |Schedule(dt, tEnd, i, n)| == StepsNeeded(dt, tEnd) - i
    ensures Sum(Schedule(dt, tEnd, i, n)) ==
              if i < StepsNeeded(dt, tEnd) then tEnd - Mul(i as real, dt) else 0.0
    decreases StepsNeeded(dt, tEnd) - i
  {
    var k := StepsNeeded(dt, tEnd);
    if i == k {
      if i < n {
        assert tEnd - Mul(i as real, dt) <= 0.0;
      }
    } else {
      ScaleMonotone(i, k - 1, dt);
      assert tEnd - Mul(i as real, dt) > 0.0;
      ScheduleCompletes(dt, tEnd, i + 1, n);
      MulAddOne(i as real, dt);
    }
  }

  /** A step of non-positive length, or with a negative time step, runs no
      sub-step at all. */
  lemma ScheduleEmpty(dt: real, tEnd: real)
    requires dt != 0.0
    requires tEnd <= 0.0 || dt < 0.0
    ensures StepSchedule(dt, tEnd) == []
  {
  }

  // ---------------------------------------------------------------------------
  // Clock and sub-step count

  /** With a positive time step and supported boundaries the step succeeds, the
      clock advances by exactly `tEnd` when it is positive, and stays put
      otherwise; the returned time is the solver's new clock. */
  lemma StepClock(s: Solver, tEnd: real)
    requires s.cfg.params.dt > 0.0 && Supported(s.cfg.bc)
    ensures Step(s, tEnd).Ok?
    ensures tEnd > 0.0 ==> Step(s, tEnd).value.solver.t == s.t + tEnd
    ensures tEnd <= 0.0 ==> Step(s, tEnd).value.solver.t == s.t
    ensures Step(s, tEnd).value.solver.cfg == s.cfg
  {
    var dt := s.cfg.params.dt;
    if tEnd > 0.0 {
      LoopBoundCoversSteps(dt, tEnd);
      ScheduleCompletes(dt, tEnd, 0, LoopBound(dt, tEnd));
    } else {
      ScheduleEmpty(dt, tEnd);
    }
  }

  /** A negative time step leaves the clock where it was. */
  lemma NegativeTimeStepRunsNothing(s: Solver, tEnd: real)
    requires s.cfg.params.dt < 0.0 && Supported(s.cfg.bc)
    ensures Step(s, tEnd).Ok?
    ensures Step(s, tEnd).value.subSteps == []
    ensures Step(s, tEnd).value.solver == s
  {
    ScheduleEmpty(s.cfg.params.dt, tEnd);
  }

  /** The sub-steps of step `tEnd` > 0: ceil(tEnd / dt) of them, never more
      than the loop bound, each local time step in (0, dt] and all but the last
      equal to dt. */
  lemma StepSubSteps(s: Solver, tEnd: real)
    requires s.cfg.params.dt > 0.0 && Supported(s.cfg.bc) && tEnd > 0.0
    ensures Step(s, tEnd).Ok?
    ensures var k := |Step(s, tEnd).value.subSteps|;
            && Mul((k - 1) as real, s.cfg.params.dt) < tEnd <= Mul(k as real, s.cfg.params.dt)
            && k <= LoopBound(s.cfg.params.dt, tEnd)
    ensures var blocks := Step(s, tEnd).value.subSteps;
            forall j :: 0 <= j < |blocks| ==>
              && blocks[j][0].EtaKernel?
              && 0.0 < blocks[j][0].localDt <= s.cfg.params.dt
              && (j < |blocks| - 1 ==> blocks[j][0].localDt == s.cfg.params.dt)
  {
    var dt := s.cfg.params.dt;
    var dts := StepSchedule(dt, tEnd);
    LoopBoundCoversSteps(dt, tEnd);
    ScheduleCompletes(dt, tEnd, 0, LoopBound(dt, tEnd));
    var blocks: seq<seq<Event>> := Step(s, tEnd).value.subSteps;
    forall j | 0 <= j < |blocks|
      ensures blocks[j][0].EtaKernel? && blocks[j][0].localDt == dts[j]
    {
      RunSubStepsBlocks(s, dts, j);
    }
  }

  // ---------------------------------------------------------------------------
  // Trace

  /** The blocks laid end to end. */
  function Flatten(blocks: seq<seq<Event>>): (ev: seq<Event>)
  {
    if blocks == [] then [] else blocks[0] + Flatten(blocks[1..])
  }

  /** The whole trace of a successful step, in issue order. */
  function Trace(r: StepResult): seq<Event>
  {
    r.refreshes + Flatten(r.subSteps)
  }

  /** Number of swap events in a trace. */
  function Swaps(ev: seq<Event>): nat
  {
    multiset(ev)[SwapLevels]
  }

  /** A sub-step swaps exactly once, as its last action. */
  lemma SubStepSwapsOnce(ev: seq<Event>, cfg: Config, d: Roles, t: real, localDt: real)
    requires Supported(cfg.bc)
    requires IsSubStep(ev, cfg, d, t, localDt)
    ensures Swaps(ev) == 1 && ev[|ev| - 1] == SwapLevels
  {
    assert ev == ev[..6] + [ev[6]];
    assert SwapLevels !in ev[..6];
  }

  lemma {:induction false} FlattenSwaps(s: Solver, dts: seq<real>, blocks: seq<seq<Event>>, from: nat)
    requires Supported(s.cfg.bc)
    requires from <= |dts|
    requires blocks == RunSubSteps(s, dts).1[from..]
    ensures Swaps(Flatten(blocks)) == |blocks|
    ensures blocks != [] ==> |Flatten(blocks)| > 0 && Flatten(blocks)[|Flatten(blocks)| - 1] == SwapLevels
    decreases |dts| - from
  {
    if blocks != [] {
      RunSubStepsBlocks(s, dts, from);
      SubStepSwapsOnce(blocks[0], s.cfg, SwapN(s.roles, from), s.t + Sum(dts[..from]), dts[from]);
      assert blocks[1..] == RunSubSteps(s, dts).1[from + 1..];
      FlattenSwaps(s, dts, blocks[1..], from + 1);
      assert Flatten(blocks) == blocks[0] + Flatten(blocks[1..]);
    }
  }

  /** The trace of a step opens with the eta, hu and hv refreshes, in that
      order, on the buffers playing level n-1, even when no sub-step runs. */
  lemma StepTraceOpensWithRefreshes(s: Solver, tEnd: real)
    requires s.cfg.params.dt != 0.0 && Supported(s.cfg.bc)
    ensures var tr := Trace(Step(s, tEnd).value);
            && |tr| >= 3
            && tr[0] == Refresh(Eta, Buf0(s.roles, Eta), Launches(s.cfg.bc, Eta))
            && tr[1] == Refresh(Hu, Buf0(s.roles, Hu), Launches(s.cfg.bc, Hu))
            && tr[2] == Refresh(Hv, Buf0(s.roles, Hv), Launches(s.cfg.bc, Hv))
  {
  }

  /** The trace holds exactly one swap per completed sub-step and, when any
      sub-step ran, ends with that swap: nothing follows the last swap. */
  lemma StepTraceSwaps(s: Solver, tEnd: real)
    requires s.cfg.params.dt != 0.0 && Supported(s.cfg.bc)
    ensures Swaps(Trace(Step(s, tEnd).value)) == |Step(s, tEnd).value.subSteps|
    ensures |Step(s, tEnd).value.subSteps| > 0 ==>
              var tr := Trace(Step(s, tEnd).value);
              |tr| > 0 && tr[|tr| - 1] == SwapLevels
  {
    var dts := StepSchedule(s.cfg.params.dt, tEnd);
    TraceSwaps(Step(s, tEnd).value, s, dts);
  }

  lemma TraceSwaps(r: StepResult, s: Solver, dts: seq<real>)
    requires Supported(s.cfg.bc)
    requires r.subSteps == RunSubSteps(s, dts).1
    requires SwapLevels !in r.refreshes
    ensures Swaps(Trace(r)) == |r.subSteps|
    ensures r.subSteps != [] ==> |Trace(r)| > 0 && Trace(r)[|Trace(r)| - 1] == SwapLevels
  {
    assert r.subSteps == RunSubSteps(s, dts).1[0..];
    FlattenSwaps(s, dts, r.subSteps, 0);
    var flat := Flatten(r.subSteps);
    assert Trace(r) == r.refreshes + flat;
    assert multiset(Trace(r)) == multiset(r.refreshes) + multiset(flat);
    assert multiset(r.refreshes)[SwapLevels] == 0;
    if r.subSteps != [] {
      var tr := Trace(r);
      assert tr[|tr| - 1] == flat[|flat| - 1];
    }
  }

  /** A closed north/south pair with an unsupported east/west pair: the eta
      refresh launches both of its passes before the hu refresh fails, and the
      failed step reports those two launches. */
  lemma FailedStepReportsEtaRefresh(s: Solver, tEnd: real)
    requires s.cfg.params.dt != 0.0
    requires s.cfg.bc.north == CLOSED && s.cfg.bc.south == CLOSED
    requires s.cfg.bc.east != PERIODIC && !(s.cfg.bc.east == CLOSED && s.cfg.bc.west == CLOSED)
    ensures Step(s, tEnd) ==
              Err(BoundaryUnsupported([Refresh(Eta, Buf0(s.roles, Eta), [ClosedEtaNS, ClosedEtaEW])]))
  {
    var bc, d := s.cfg.bc, s.roles;
    assert [Eta, Hu, Hv][1..] == [Hu, Hv];
    assert RefreshesUntilFailure(bc, d, [Hu, Hv]) == [] by {
      assert BoundaryCondition(bc, Hu).Err?;
    }
    assert RefreshesUntilFailure(bc, d, [Eta, Hu, Hv])
        == [Refresh(Eta, Buf0(d, Eta), [ClosedEtaNS, ClosedEtaEW])];
  }

  /** After a step the buffer roles have been swapped once per completed
      sub-step, all three fields together. */
  lemma StepSwapsRoles(s: Solver, tEnd: real)
    requires s.cfg.params.dt != 0.0 && Supported(s.cfg.bc)
    ensures Step(s, tEnd).value.solver.roles == SwapN(s.roles, |Step(s, tEnd).value.subSteps|)
  {
  }

  // ---------------------------------------------------------------------------
  // Buffer roles

  /** Within a sub-step each kernel writes its own field's level n-1 buffer
      (overwriting it with level n+1), which is none of its level-n inputs and
      never the depth field; the momentum kernels see the eta and hu of level
      n, not the level n+1 the kernels before them have just produced.  Both
      momentum kernels get the same wind time. */
  lemma SubStepRoles(ev: seq<Event>, cfg: Config, d: Roles, t: real, localDt: real)
    requires Supported(cfg.bc)
    requires IsSubStep(ev, cfg, d, t, localDt)
    ensures ev[0].etaOut != ev[0].huIn && ev[0].etaOut != ev[0].hvIn
    ensures ev[2].huOut !in {ev[2].depth, ev[2].etaIn, ev[2].huIn, ev[2].hvIn}
    ensures ev[4].hvOut !in {ev[4].depth, ev[4].etaIn, ev[4].huIn, ev[4].hvIn}
    ensures ev[2].etaIn != ev[0].etaOut && ev[4].etaIn != ev[0].etaOut
    ensures ev[4].huIn != ev[2].huOut
    ensures ev[2].depth == Bathymetry && ev[4].depth == Bathymetry
    ensures ev[1].target == ev[0].etaOut && ev[3].target == ev[2].huOut && ev[5].target == ev[4].hvOut
    ensures ev[2].windTime == t && ev[4].windTime == t
  {
  }

  /** Consecutive sub-steps chain as a leap-frog: what a kernel writes in one
      sub-step is read as level n in the next, and the buffer read as level n
      in one sub-step is the one overwritten in the next. */
  lemma LeapfrogChain(s: Solver, tEnd: real, j: nat)
    requires s.cfg.params.dt != 0.0 && Supported(s.cfg.bc)
    requires j + 1 < |StepSchedule(s.cfg.params.dt, tEnd)|
    ensures var b := Step(s, tEnd).value.subSteps;
            && b[j + 1][2].etaIn == b[j][0].etaOut
            && b[j + 1][0].etaOut == b[j][2].etaIn
            && b[j + 1][0].huIn == b[j][2].huOut
            && b[j + 1][2].huOut == b[j][2].huIn
            && b[j + 1][0].hvIn == b[j][4].hvOut
            && b[j + 1][4].hvOut == b[j][4].hvIn
  {
    var dts := StepSchedule(s.cfg.params.dt, tEnd);
    RunSubStepsBlocks(s, dts, j);
    RunSubStepsBlocks(s, dts, j + 1);
    assert SwapN(s.roles, j + 1) == Swap(SwapN(s.roles, j));
  }

  /** The wind time handed to sub-step `j` is the clock at the start of the
      step plus the local time steps of the sub-steps before it. */
  lemma WindTimeIsStartOfSubStep(s: Solver, tEnd: real, j: nat)
    requires s.cfg.params.dt != 0.0 && Supported(s.cfg.bc)
    requires j < |StepSchedule(s.cfg.params.dt, tEnd)|
    ensures var b := Step(s, tEnd).value.subSteps;
            && b[j][2].windTime == b[j][4].windTime
            && b[j][2].windTime == s.t + LocalDtSum(b, j)
  {
    var dts := StepSchedule(s.cfg.params.dt, tEnd);
    var b: seq<seq<Event>> := Step(s, tEnd).value.subSteps;
    RunSubStepsBlocks(s, dts, j);
    LocalDtSumIsScheduleSum(s, dts, j);
  }

  /** The local time steps of the first `j` blocks, read off their eta kernels. */
  function LocalDtSum(blocks: seq<seq<Event>>, j: nat): real
    requires j <= |blocks|
    requires forall k :: 0 <= k < |blocks| ==> |blocks[k]| > 0 && blocks[k][0].EtaKernel?
  {
    if j == 0 then 0.0 else blocks[0][0].localDt + LocalDtSum(blocks[1..], j - 1)
  }

  lemma {:induction false} LocalDtSumIsScheduleSum(s: Solver, dts: seq<real>, j: nat)
    requires Supported(s.cfg.bc)
    requires j <= |dts|
    ensures forall k :: 0 <= k < |dts| ==>
              |RunSubSteps(s, dts).1[k]| > 0 && RunSubSteps(s, dts).1[k][0].EtaKernel?
    ensures LocalDtSum(RunSubSteps(s, dts).1, j) == Sum(dts[..j])
    decreases j
  {
    forall k | 0 <= k < |dts|
      ensures |RunSubSteps(s, dts).1[k]| > 0 && RunSubSteps(s, dts).1[k][0].EtaKernel?
    {
      RunSubStepsBlocks(s, dts, k);
    }
    if j > 0 {
      var s1 := SubStep(s, dts[0]).0;
      assert RunSubSteps(s, dts).1[1..] == RunSubSteps(s1, dts[1..]).1;
      LocalDtSumIsScheduleSum(s1, dts[1..], j - 1);
      RunSubStepsBlocks(s, dts, 0);
      SumPrefix(dts, j);
    }
  }
}

=== FILE: drifter_ensemble.dfy ===
/** Grid-shape bookkeeping of a drifter ensemble: the particle slots made at
    construction, the ghost-cell widths and padded data shape chosen from the
    boundary conditions, the default initial fields and bathymetry, and the
    physical parameters.  The simulators and drifter collections the ensemble
    delegates to are not modelled. */
module DrifterEnsemble {
  import opened Results
  import opened Common

  /** Ghost-cell width on a side without a sponge layer. */
  const DEFAULT_GHOST: int := 2

  /** Depth of the flat default bathymetry. */
  const WATER_DEPTH: real := 10.0

  /** Type code of the default wind-stress descriptor. */
  const DEFAULT_WIND_KIND: int := 99

  /** A 2-D array of floats, row by row. */
  type Array2D = seq<seq<real>>

  predicate HasShape(a: Array2D, rows: int, cols: int)
  {
    |a| == rows && forall i :: 0 <= i < |a| ==> |a[i]| == cols
  }

  predicate FilledWith(a: Array2D, v: real)
  {
    forall i, j :: 0 <= i < |a| && 0 <= j < |a[i]| ==> a[i][j] == v
  }

  /** A `rows` by `cols` array with every entry `v`. */
  function Full(rows: nat, cols: nat, v: real): (a: Array2D)
    ensures HasShape(a, rows, cols) && FilledWith(a, v)
  {
    seq(rows, _ => seq(cols, _ => v))
  }

  /** An ocean state held in a particle slot; its contents are not modelled. */
  datatype OceanState = OceanState(id: nat)

  datatype Parameters = Parameters(f: real, g: real, beta: real, r: real, wind: WindStress)

  /** The parameters `setParameters` applies when given no arguments. */
  const DefaultParameters: Parameters :=
    Parameters(0.0, 9.81, 0.0, 0.0, DefaultOfKind(DEFAULT_WIND_KIND))

  /** Everything `setGridInfo` records. */
  datatype GridInfo = GridInfo(
    nx: nat, ny: nat,
    dx: real, dy: real, dt: real,
    bc: BoundaryConditions,
    initializationVariance: real,
    midPoint: (real, real),
    initializationCov: Array2D,
    ghostCells: Quad,
    dataShape: (int, int),
    baseEta: Array2D, baseHu: Array2D, baseHv: Array2D, baseH: Array2D)

  datatype Ensemble = Ensemble(
    numParticles: int,
    particles: seq<Option<OceanState>>,
    obsIndex: int,
    observationVariance: real,
    grid: Option<GridInfo>,
    params: Option<Parameters>)

  datatype EnsembleError = GridInfoNotSet

  /** Construction: one empty slot per particle plus one for the observation,
      which sits at index `numParticles`.  A list of `numParticles + 1` empty
      slots is empty when that count is not positive. */
  function NewEnsemble(numParticles: int, observationVariance: real): (e: Ensemble)
    ensures |e.particles| == if numParticles + 1 > 0 then numParticles + 1 else 0
    ensures forall i :: 0 <= i < |e.particles| ==> e.particles[i] == None
    ensures e.obsIndex == numParticles
    ensures 0 <= numParticles ==> 0 <= e.obsIndex < |e.particles|
    ensures e.numParticles == numParticles && e.observationVariance == observationVariance
    ensures e.grid == None && e.params == None
  {
    var slots := if numParticles + 1 > 0 then numParticles + 1 else 0;
    Ensemble(numParticles, seq(slots, _ => None), numParticles, observationVariance, None, None)
  }

  /** The loop over the four sides from side `i` on: a positive sponge width
      replaces the ghost width of its side. */
  function OverrideGhosts(widths: Quad, sponge: Quad, i: nat): (g: Quad)
    requires i <= 4
    ensures forall k :: 0 <= k < 4 ==>
              g[k] == if i <= k && sponge[k] > 0 then sponge[k] else widths[k]
    decreases 4 - i
  {
    if i == 4 then widths
    else
      var next: Quad := if sponge[i] > 0 then widths[i := sponge[i]] else widths;
      OverrideGhosts(next, sponge, i + 1)
  }

  /** Ghost-cell widths, north, east, south, west: 2 on every side, except
      that with sponge boundaries a side with a positive sponge width takes
      that width. */
  function GhostCells(bc: BoundaryConditions): (g: Quad)
    ensures forall k :: 0 <= k < 4 ==>
              g[k] == if IsSponge(bc) && bc.spongeCells[k] > 0 then bc.spongeCells[k] else DEFAULT_GHOST
    ensures forall k :: 0 <= k < 4 ==> g[k] >= 1
  {
    var g: Quad := [DEFAULT_GHOST, DEFAULT_GHOST, DEFAULT_GHOST, DEFAULT_GHOST];
    if IsSponge(bc) then OverrideGhosts(g, bc.spongeCells, 0) else g
  }

  /** The padded shape (rows, columns) of the initial fields. */
  function DataShape(nx: nat, ny: nat, widths: Quad): (shape: (int, int))
  {
    (ny + widths[0] + widths[2], nx + widths[1] + widths[3])
  }

  /** A field as given, or zeros of the data shape when none is given. */
  function OrZeros(given: Option<Array2D>, rows: nat, cols: nat): (a: Array2D)
    ensures given.Some? ==> a == given.value
    ensures given.None? ==> HasShape(a, rows, cols) && FilledWith(a, 0.0)
  {
    match given
    case Some(v) => v
    case None => Full(rows, cols, 0.0)
  }

  /** The bathymetry as given, or a flat bottom of depth 10 one cell larger
      than the data shape in each direction. */
  function OrFlatBottom(given: Option<Array2D>, rows: nat, cols: nat): (a: Array2D)
    ensures given.Some? ==> a == given.value
    ensures given.None? ==> HasShape(a, rows + 1, cols + 1) && FilledWith(a, WATER_DEPTH)
  {
    match given
    case Some(v) => v
    case None => Full(rows + 1, cols + 1, WATER_DEPTH)
  }

  /** Record the grid, pick ghost cells and data shape, fill in missing
      initial fields and bathymetry, and reset the parameters to their
      defaults. */
  function SetGridInfo(e: Ensemble, nx: nat, ny: nat, dx: real, dy: real, dt: real,
                       bc: BoundaryConditions,
                       eta: Option<Array2D>, hu: Option<Array2D>, hv: Option<Array2D>,
                       h: Option<Array2D>): (e': Ensemble)
    ensures e'.grid.Some? && e'.params == Some(DefaultParameters)
    ensures var gi := e'.grid.value;
            && gi.nx == nx && gi.ny == ny && gi.dx == dx && gi.dy == dy && gi.dt == dt && gi.bc == bc
            && gi.ghostCells == GhostCells(bc)
            && gi.dataShape.0 == ny + gi.ghostCells[0] + gi.ghostCells[2]
            && gi.dataShape.1 == nx + gi.ghostCells[1] + gi.ghostCells[3]
            && gi.initializationVariance == 10.0 * dx
            && gi.initializationCov == [[10.0 * dx, 0.0], [0.0, 10.0 * dx]]
            && gi.midPoint == (0.5 * (nx as real * dx), 0.5 * (ny as real * dy))
    ensures var gi := e'.grid.value;
            && (eta.Some? ==> gi.baseEta == eta.value)
            && (eta.None? ==> HasShape(gi.baseEta, gi.dataShape.0, gi.dataShape.1) && FilledWith(gi.baseEta, 0.0))
            && (hu.Some? ==> gi.baseHu == hu.value)
            && (hu.None? ==> HasShape(gi.baseHu, gi.dataShape.0, gi.dataShape.1) && FilledWith(gi.baseHu, 0.0))
            && (hv.Some? ==> gi.baseHv == hv.value)
            && (hv.None? ==> HasShape(gi.baseHv, gi.dataShape.0, gi.dataShape.1) && FilledWith(gi.baseHv, 0.0))
            && (h.Some? ==> gi.baseH == h.value)
            && (h.None? ==> HasShape(gi.baseH, gi.dataShape.0 + 1, gi.dataShape.1 + 1) && FilledWith(gi.baseH, WATER_DEPTH))
    ensures e'.numParticles == e.numParticles && e'.particles == e.particles
    ensures e'.obsIndex == e.obsIndex && e'.observationVariance == e.observationVariance
  {
    var widths := GhostCells(bc);
    var shape := DataShape(nx, ny, widths);
    var variance := 10.0 * dx;
    var gi := GridInfo(
      nx, ny, dx, dy, dt, bc,
      variance,
      (0.5 * (nx as real * dx), 0.5 * (ny as real * dy)),
      [[variance, 0.0], [0.0, variance]],
      widths, shape,
      OrZeros(eta, shape.0, shape.1), OrZeros(hu, shape.0, shape.1), OrZeros(hv, shape.0, shape.1),
      OrFlatBottom(h, shape.0, shape.1));
    SetParameters(e.(grid := Some(gi)), DefaultParameters)
  }

  /** Set the physical parameters; nothing else changes. */
  function SetParameters(e: Ensemble, p: Parameters): (e': Ensemble)
    ensures e'.params == Some(p)
    ensures e'.(params := e.params) == e
  {
    e.(params := Some(p))
  }

  /** What the ensemble reads off a running simulator: its grid, boundary
      conditions, downloaded fields, bathymetry and parameters. */
  datatype SimSnapshot = SimSnapshot(
    nx: nat, ny: nat, dx: real, dy: real, dt: real,
    bc: BoundaryConditions,
    eta: Array2D, hu: Array2D, hv: Array2D, bathymetry: Array2D,
    params: Parameters)

  /** Take grid, fields and bathymetry from a simulator, then its parameters:
      they are applied after the defaults `SetGridInfo` installs, so they win. */
  function SetGridInfoFromSim(e: Ensemble, sim: SimSnapshot): (e': Ensemble)
    ensures e'.params == Some(sim.params)
    ensures e'.grid.Some?
    ensures var gi := e'.grid.value;
            && gi.nx == sim.nx && gi.ny == sim.ny && gi.bc == sim.bc
            && gi.dx == sim.dx && gi.dy == sim.dy && gi.dt == sim.dt
            && gi.ghostCells == GhostCells(sim.bc)
            && gi.baseEta == sim.eta && gi.baseHu == sim.hu && gi.baseHv == sim.hv
            && gi.baseH == sim.bathymetry
    ensures e'.numParticles == e.numParticles && e'.particles == e.particles
    ensures e'.obsIndex == e.obsIndex && e'.observationVariance == e.observationVariance
  {
    var withGrid := SetGridInfo(e, sim.nx, sim.ny, sim.dx, sim.dy, sim.dt, sim.bc,
                                Some(sim.eta), Some(sim.hu), Some(sim.hv), Some(sim.bathymetry));
    SetParameters(withGrid, sim.params)
  }

  /** Width of the domain; fails before the grid is set. */
  function DomainSizeX(e: Ensemble): (r: Result<real, EnsembleError>)
    ensures r.Ok? <==> e.grid.Some?
    ensures r.Ok? ==> r.value == e.grid.value.nx as real * e.grid.value.dx
  {
    match e.grid
    case Some(gi) => Ok(gi.nx as real * gi.dx)
    case None => Err(GridInfoNotSet)
  }

  /** Height of the domain; fails before the grid is set. */
  function DomainSizeY(e: Ensemble): (r: Result<real, EnsembleError>)
    ensures r.Ok? <==> e.grid.Some?
    ensures r.Ok? ==> r.value == e.grid.value.ny as real * e.grid.value.dy
  {
    match e.grid
    case Some(gi) => Ok(gi.ny as real * gi.dy)
    case None => Err(GridInfoNotSet)
  }

  /** What `init` hands on: the fields, grid, physical constants and wind the
      simulator is built from, and the particle count, observation variance,
      boundary conditions and domain size the drifter collection is built
      from.  The simulator is given g, f and r but no beta. */
  datatype InitPlan = InitPlan(
    eta: Array2D, hu: Array2D, hv: Array2D, h: Array2D,
    nx: nat, ny: nat, dx: real, dy: real, dt: real,
    g: real, f: real, r: real, wind: WindStress,
    bc: BoundaryConditions,
    numDrifters: int, observationVariance: real,
    domainSizeX: real, domainSizeY: real)

  /** `init` as written: fails when the grid (and with it the parameters) was
      never set; otherwise hands on everything stored except beta. */
  function InitPlanOf(e: Ensemble): (r: Result<InitPlan, EnsembleError>)
    ensures r.Ok? <==> e.grid.Some? && e.params.Some?
    ensures r.Ok? ==> var gi := e.grid.value; var p := e.params.value;
                      && r.value.eta == gi.baseEta && r.value.hu == gi.baseHu
                      && r.value.hv == gi.baseHv && r.value.h == gi.baseH
                      && r.value.nx == gi.nx && r.value.ny == gi.ny
                      && r.value.dx == gi.dx && r.value.dy == gi.dy && r.value.dt == gi.dt
                      && r.value.g == p.g && r.value.f == p.f && r.value.r == p.r
                      && r.value.wind == p.wind
                      && r.value.bc == gi.bc
                      && r.value.numDrifters == e.numParticles
                      && r.value.observationVariance == e.observationVariance
                      && r.value.domainSizeX == gi.nx as real * gi.dx
                      && r.value.domainSizeY == gi.ny as real * gi.dy
  {
    match (e.grid, e.params)
    case (Some(gi), Some(p)) =>
      Ok(InitPlan(gi.baseEta, gi.baseHu, gi.baseHv, gi.baseH,
                  gi.nx, gi.ny, gi.dx, gi.dy, gi.dt,
                  p.g, p.f, p.r, p.wind, gi.bc,
                  e.numParticles, e.observationVariance,
                  gi.nx as real * gi.dx, gi.ny as real * gi.dy))
    case _ => Err(GridInfoNotSet)
  }

  /** The plan with the beta-plane coefficient handed on as well. */
  datatype BetaPlanePlan = BetaPlanePlan(base: InitPlan, beta: real)

  /** `init` as evidently intended: the same plan, plus the stored beta. */
  function InitPlanWithBeta(e: Ensemble): (r: Result<BetaPlanePlan, EnsembleError>)
    ensures r.Ok? <==> InitPlanOf(e).Ok?
    ensures r.Ok? ==> r.value.base == InitPlanOf(e).value && r.value.beta == e.params.value.beta
  {
    match InitPlanOf(e)
    case Ok(plan) => Ok(BetaPlanePlan(plan, e.params.value.beta))
    case Err(err) => Err(err)
  }

  // ---------------------------------------------------------------------------
  // Properties

  /** Once the grid is set, `init` always succeeds.  As written it hands the
      simulator the default g, f, r and wind and gives the drifters the same
      domain size the ensemble reports; beta is not handed on at all, so the
      default beta of 0 is a property of the corrected plan only. */
  lemma InitAfterGrid(e: Ensemble, nx: nat, ny: nat, dx: real, dy: real, dt: real,
                      bc: BoundaryConditions,
                      eta: Option<Array2D>, hu: Option<Array2D>, hv: Option<Array2D>,
                      h: Option<Array2D>)
    ensures var e' := SetGridInfo(e, nx, ny, dx, dy, dt, bc, eta, hu, hv, h);
            var plan := InitPlanWithBeta(e');
            && InitPlanOf(e').Ok? && plan.Ok? && plan.value.base == InitPlanOf(e').value
            && Ok(plan.value.base.domainSizeX) == DomainSizeX(e')
            && Ok(plan.value.base.domainSizeY) == DomainSizeY(e')
            && plan.value.base.g == DefaultParameters.g && plan.value.base.f == DefaultParameters.f
            && plan.value.base.r == DefaultParameters.r && plan.value.base.wind == DefaultParameters.wind
            && plan.value.beta == DefaultParameters.beta
  {
  }

  /** As written, `init` ignores beta: an ensemble taken from a simulator
      with any beta initialises exactly as one taken from a simulator with
      beta 0. */
  lemma InitDropsBeta(e: Ensemble, sim: SimSnapshot)
    ensures InitPlanOf(SetGridInfoFromSim(e, sim)) ==
              InitPlanOf(SetGridInfoFromSim(e, sim.(params := sim.params.(beta := 0.0))))
  {
    var e1 := SetGridInfoFromSim(e, sim);
    var e2 := SetGridInfoFromSim(e, sim.(params := sim.params.(beta := 0.0)));
    assert e1.grid == e2.grid;
    assert e1.params.value.(beta := 0.0) == e2.params.value;
    assert e2 == e1.(params := Some(e1.params.value.(beta := 0.0)));
    var plan1, plan2 := InitPlanOf(e1).value, InitPlanOf(e2).value;
    assert plan1.g == plan2.g && plan1.f == plan2.f && plan1.r == plan2.r && plan1.wind == plan2.wind;
    assert plan1.eta == plan2.eta && plan1.hu == plan2.hu && plan1.hv == plan2.hv && plan1.h == plan2.h;
    assert InitPlanOf(e1).Ok? && InitPlanOf(e2).Ok?;
    assert plan1 == plan2;
  }

  /** As intended, the simulator's beta reaches `init`, so simulators that
      differ only in beta give different plans. */
  lemma InitKeepsSimulatorBeta(e: Ensemble, sim: SimSnapshot, beta: real)
    requires beta != sim.params.beta
    ensures InitPlanWithBeta(SetGridInfoFromSim(e, sim)).Ok?
    ensures InitPlanWithBeta(SetGridInfoFromSim(e, sim)).value.beta == sim.params.beta
    ensures InitPlanWithBeta(SetGridInfoFromSim(e, sim)) !=
              InitPlanWithBeta(SetGridInfoFromSim(e, sim.(params := sim.params.(beta := beta))))
  {
  }

  /** Without sponge boundaries every side gets two ghost cells, so the data
      shape is the interior grown by four in each direction. */
  lemma NoSpongeShape(bc: BoundaryConditions, nx: nat, ny: nat)
    requires !IsSponge(bc)
    ensures GhostCells(bc) == [2, 2, 2, 2]
    ensures DataShape(nx, ny, GhostCells(bc)) == (ny + 4, nx + 4)
  {
    var g := GhostCells(bc);
    assert g[0] == 2 && g[1] == 2 && g[2] == 2 && g[3] == 2;
  }

  /** Ghost cells only ever widen the grid: the data shape is at least the
      interior plus one cell per side, and sponge boundaries without a
      positive sponge width give the same shape as no sponge at all. */
  lemma DataShapeBounds(bc: BoundaryConditions, nx: nat, ny: nat)
    ensures var shape := DataShape(nx, ny, GhostCells(bc));
            shape.0 >= ny + 2 && shape.1 >= nx + 2
    ensures (forall k :: 0 <= k < 4 ==> bc.spongeCells[k] <= 0) ==>
              DataShape(nx, ny, GhostCells(bc)) == (ny + 4, nx + 4)
  {
    var g := GhostCells(bc);
    assert g[0] >= 1 && g[1] >= 1 && g[2] >= 1 && g[3] >= 1;
    if forall k :: 0 <= k < 4 ==> bc.spongeCells[k] <= 0 {
      assert g[0] == 2 && g[1] == 2 && g[2] == 2 && g[3] == 2;
    }
  }

  /** The mid point `setGridInfo` records is half the domain size the
      ensemble reports, in each direction. */
  lemma MidPointIsHalfDomain(e: Ensemble, nx: nat, ny: nat, dx: real, dy: real, dt: real,
                             bc: BoundaryConditions,
                             eta: Option<Array2D>, hu: Option<Array2D>, hv: Option<Array2D>,
                             h: Option<Array2D>)
    ensures var e' := SetGridInfo(e, nx, ny, dx, dy, dt, bc, eta, hu, hv, h);
            e'.grid.value.midPoint == (0.5 * DomainSizeX(e').value, 0.5 * DomainSizeY(e').value)
  {
    var e' := SetGridInfo(e, nx, ny, dx, dy, dt, bc, eta, hu, hv, h);
    var gi := e'.grid.value;
    assert gi.nx == nx && gi.dx == dx && gi.ny == ny && gi.dy == dy;
    assert DomainSizeX(e').value == nx as real * dx;
    assert DomainSizeY(e').value == ny as real * dy;
  }

  /** Setting the same grid twice is the same as setting it once. */
  lemma SetGridInfoIdempotent(e: Ensemble, nx: nat, ny: nat, dx: real, dy: real, dt: real,
                              bc: BoundaryConditions,
                              eta: Option<Array2D>, hu: Option<Array2D>, hv: Option<Array2D>,
                              h: Option<Array2D>)
    ensures var once := SetGridInfo(e, nx, ny, dx, dy, dt, bc, eta, hu, hv, h);
            SetGridInfo(once, nx, ny, dx, dy, dt, bc, eta, hu, hv, h) == once
  {
  }

  /** Parameters set after the grid survive; parameters set before it are
      replaced by the defaults. */
  lemma ParametersAndGridOrder(e: Ensemble, p: Parameters, nx: nat, ny: nat, dx: real, dy: real,
                               dt: real, bc: BoundaryConditions)
    ensures SetParameters(SetGridInfo(e, nx, ny, dx, dy, dt, bc, None, None, None, None), p).params == Some(p)
    ensures SetGridInfo(SetParameters(e, p), nx, ny, dx, dy, dt, bc, None, None, None, None).params
              == Some(DefaultParameters)
  {
  }
}

=== FILE: mockup_sim.dfy ===
/** The mock-up simulator: a step counter that is initialised to a fixed
    number of steps and refuses to run past the last one. */
module MockupSim {
  import opened Results

  /** The last step index `init` sets. */
  const FINAL_STEP: int := 4

  /** Next step to execute and last step allowed; both -1 before `init`. */
  datatype SimState = SimState(nextStep: int, finalStep: int)

  /** The runtime error raised when asked to run past the final step; it
      reports both counters. */
  datatype SimError = StepBeyondFinal(nextStep: int, finalStep: int)

  /** A freshly constructed simulator. */
  function Fresh(): (s: SimState)
    ensures s.nextStep == -1 && s.finalStep == -1
  {
    SimState(-1, -1)
  }

  /** `init` starts the counter at 0 with 4 as the final step, whatever the
      state before. */
  function InitState(s: SimState): (s': SimState)
    ensures s'.nextStep == 0 && s'.finalStep == FINAL_STEP
  {
    SimState(0, FINAL_STEP)
  }

  /** Execute the next step: an error when the counter has passed the final
      step, otherwise the counter moves on by one. */
  function ExecStep(s: SimState): (r: Result<SimState, SimError>)
    ensures r.Err? <==> s.nextStep > s.finalStep
    ensures r.Err? ==> r.error == StepBeyondFinal(s.nextStep, s.finalStep)
    ensures r.Ok? ==> r.value.nextStep == s.nextStep + 1 && r.value.finalStep == s.finalStep
  {
    if s.nextStep > s.finalStep then Err(StepBeyondFinal(s.nextStep, s.finalStep))
    else Ok(s.(nextStep := s.nextStep + 1))
  }

  /** `k` calls of `ExecNextStep` in a row, stopping at the first error. */
  function ExecSteps(s: SimState, k: nat): Result<SimState, SimError>
    decreases k
  {
    if k == 0 then Ok(s)
    else match ExecStep(s)
      case Err(e) => Err(e)
      case Ok(s1) => ExecSteps(s1, k - 1)
  }

  /** The counter never passes the final step by more than one. */
  predicate Valid(s: SimState) {
    -1 <= s.nextStep <= s.finalStep + 1
  }

  lemma FreshAndInitValid(s: SimState)
    ensures Valid(Fresh()) && Valid(InitState(s))
  {
  }

  /** A successful step keeps the state valid. */
  lemma ExecPreservesValid(s: SimState)
    requires Valid(s)
    ensures ExecStep(s).Ok? ==> Valid(ExecStep(s).value)
  {
  }

  /** From a valid state, exactly `finalStep - nextStep + 1` steps succeed,
      ending with the counter one past the final step, and the next one fails. */
  lemma {:induction false} RemainingSteps(s: SimState)
    requires Valid(s)
    ensures var k := s.finalStep - s.nextStep + 1;
            && k >= 0
            && ExecSteps(s, k) == Ok(SimState(s.finalStep + 1, s.finalStep))
            && ExecSteps(s, k + 1).Err?
    decreases s.finalStep - s.nextStep + 1
  {
    if s.nextStep > s.finalStep {
      assert ExecSteps(s, 1) == Err(StepBeyondFinal(s.nextStep, s.finalStep));
    } else {
      var s1 := SimState(s.nextStep + 1, s.finalStep);
      RemainingSteps(s1);
      var k := s.finalStep - s.nextStep + 1;
      assert ExecSteps(s, k) == ExecSteps(s1, k - 1);
      assert ExecSteps(s, k + 1) == ExecSteps(s1, k);
    }
  }

  /** After `init`, five steps succeed and the sixth fails. */
  lemma InitAllowsFiveSteps(s: SimState)
    ensures ExecSteps(InitState(s), 5) == Ok(SimState(5, FINAL_STEP))
    ensures ExecSteps(InitState(s), 6).Err?
  {
    RemainingSteps(InitState(s));
  }

  /** Every state reached from `init` satisfies 0 <= nextStep <= finalStep + 1. */
  lemma {:induction false} ReachableFromInit(s: SimState, k: nat)
    requires ExecSteps(InitState(s), k).Ok?
    ensures var s' := ExecSteps(InitState(s), k).value;
            0 <= s'.nextStep <= s'.finalStep + 1 && s'.finalStep == FINAL_STEP
            && s'.nextStep == k
  {
    ReachableAfter(InitState(s), k);
  }

  lemma {:induction false} ReachableAfter(s: SimState, k: nat)
    requires Valid(s) && 0 <= s.nextStep
    requires ExecSteps(s, k).Ok?
    ensures var s' := ExecSteps(s, k).value;
            Valid(s') && 0 <= s'.nextStep && s'.finalStep == s.finalStep
            && s'.nextStep == s.nextStep + k
    decreases k
  {
    if k > 0 {
      var s1 := ExecStep(s).value;
      ReachableAfter(s1, k - 1);
    }
  }

  /** The simulator object: one mutable state behind `init`, `execNextStep`
      and the two getters. */
  class Simulator {
    var state: SimState

    ghost predicate ObjValid()
      reads this
    {
      Valid(state)
    }

    constructor ()
      ensures state == Fresh() && ObjValid()
    {
      state := Fresh();
    }

    method Init()
      modifies this
      ensures state == SimState(0, FINAL_STEP) && ObjValid()
    {
      state := InitState(state);
    }

    function NextStep(): int
      reads this
    {
      state.nextStep
    }

    function FinalStep(): int
      reads this
    {
      state.finalStep
    }

    /** Runs one step; on failure the state is left as it was. */
    method ExecNextStep() returns (r: Result<(), SimError>)
      requires ObjValid()
      modifies this
      ensures ObjValid()
      ensures r.Err? <==> old(state.nextStep) > old(state.finalStep)
      ensures r.Err? ==> r.error == StepBeyondFinal(old(state.nextStep), old(state.finalStep))
      ensures r.Err? ==> state == old(state)
      ensures r.Ok? ==> state == old(state).(nextStep := old(state.nextStep) + 1)
    {
      match ExecStep(state)
      case Err(e) =>
        r := Err(e);
      case Ok(s') =>
        state := s';
        r := Ok(());
    }
  }
}

=== FILE: numeric.dfy ===
/** Arithmetic on the mathematical reals that stand in for the solver's
    single-precision floats, and the float-to-integer conversions it uses. */
module Numeric {

  /** Conversion of a float to an integer, truncating toward zero. */
  function Trunc(x: real): (n: int)
    ensures 0.0 <= x ==> n as real <= x < n as real + 1.0
    ensures x < 0.0 ==> n as real - 1.0 < x <= n as real
  {
    if x >= 0.0 then x.Floor else -((-x).Floor)
  }

  /** Smallest integer not below `x`. */
  function Ceil(x: real): (n: int)
    ensures x <= n as real < x + 1.0
  {
    -((-x).Floor)
  }

  function Min(a: real, b: real): (m: real)
    ensures m <= a && m <= b && (m == a || m == b)
  {
    if a <= b then a else b
  }

  /** Sum of a sequence of durations. */
  function Sum(xs: seq<real>): real
  {
    if xs == [] then 0.0 else xs[0] + Sum(xs[1..])
  }

  /** Product of two reals, kept as a function so that the solver treats it
      as one term in otherwise linear reasoning. */
  function Mul(a: real, b: real): real
  {
    a * b
  }

  lemma NonNegativeProduct(x: real, y: real)
    requires 0.0 <= x && 0.0 < y
    ensures 0.0 <= Mul(x, y)
  {
  }

  lemma PositiveProduct(x: real, y: real)
    requires 0.0 < x && 0.0 < y
    ensures 0.0 < Mul(x, y)
  {
  }

  lemma MulSub(a: real, b: real, c: real)
    ensures Mul(a - b, c) == Mul(a, c) - Mul(b, c)
  {
  }

  lemma MulAddOne(a: real, c: real)
    ensures Mul(a + 1.0, c) == Mul(a, c) + c
  {
  }

  lemma DivMul(a: real, b: real)
    requires b != 0.0
    ensures Mul(a / b, b) == a
  {
  }
}

=== FILE: results.dfy ===
/** Failure-carrying return values shared by every module of the model.
    An exception or failed assertion of the modelled code becomes an `Err`. */
module Results {

  datatype Option<+T> = None | Some(value: T)

  datatype Result<+T, +E> = Ok(value: T) | Err(error: E)
}
